=== FILE: README.md ===
# Portfolio catalogue model

A Dafny model of the portfolio catalogue in `simple_app.py`, the admin panel's `DatabaseStorage`
together with the three portfolio routes. The catalogue holds at most one portfolio item per
service: Printing Press, SEO and Packages Solutions. Every item is stored with its image file in
a shared folder. The modules are:

- `Text` (`text.dfy`): ASCII lowercasing, and substring search for Python's `in` on strings.
- `Categories` (`categories.dfy`): the category normaliser. It appears twice in the source, once
  in `add_portfolio_item` and once in `update_portfolio_item`, and both copies are the same code.
- `Uploads` (`uploads.dfy`): `allowed_file` and `ALLOWED_EXTENSIONS`.
- `Catalogue` (`catalogue.dfy`): the state and the operations.
  - `Store` holds four things:
    - the `portfolio_items` table as a sequence of `Item`s in id order;
    - the AUTOINCREMENT counter (`nextId`);
    - the image folder, as a set of file names;
    - the in-memory list `self.portfolio_items` (`cache`).
  - `GetPortfolioItem`, `Add`, `Update`, `Delete` and `Load` model `get_portfolio_item`,
    `add_portfolio_item`, `update_portfolio_item`, `delete_portfolio_item` and
    `_load_portfolio_items`, with their effects on both the table and the list.
- `CatalogueProps` (`catalogue_props.dfy`): the catalogue invariant `Valid`. It says:
  - ids are ascending and below the counter;
  - every category lowercases to a service key;
  - there is at most one row per category;
  - no two rows name the same image file. Files that no row names are allowed: an edit can save
    an upload and then find no row to update.
  
  The module also defines `Mirrored`, which says the in-memory list equals the table. It proves
  that every operation preserves both, and proves the frame properties (what each operation leaves
  alone).
- `Routes` (`routes.dfy`): the form and upload guards of `add_portfolio`, `edit_portfolio` and
  `delete_portfolio`. `Run` serves a sequence of such requests, and a proof shows the invariant
  holds across any such sequence.

`Wrappers` (`wrappers.dfy`) holds the `Option` type. `UnicodeFold` (`unicode_fold.dfy`) models
`add_portfolio_item` with the source's two different lowercasings, for the finding below.

The model follows the code in these places:

- A category that is already canonical is returned verbatim, with the caller's casing: `"sEo"`
  stays `"sEo"`. So stored categories lowercase to a service key but need not be one of the three
  display names. The invariant is stated over the lowercased key for this reason.
- `get_portfolio_item`, and therefore the edit route's "not found" check, reads the in-memory
  list. Update and delete read the table. The two agree only while `Mirrored` holds, and the
  lemmas prove that it keeps holding.
- The update purges other rows of the new category only when the category changed or an image
  was supplied. The list is filtered unconditionally. `UpdateKeepsMirror` proves that the two
  agree under the invariant.
- The edit route reports success even when `update_portfolio_item` returns `None`.

## Model

| member | source | states |
|---|---|---|
| Categories.NormalizeFolded | simple_app.py:407-418 | Given the category and its lowercase form: a canonical lowercase form returns the category verbatim; any other gets the display name of the service the keyword heuristic picks for that form. |
| Categories.Normalize | simple_app.py:406-420 | The result always lowercases to one of the three service keys. A canonical input in any casing is returned verbatim. Any other input maps to the service picked by the keyword heuristic (`Classify`). |
| Categories.NormalizeIdempotent | simple_app.py:508-522 | Normalising a normalised category returns it unchanged. |
| Categories.NormalizeFollowsClassify | simple_app.py:407-418 | The lowercased result is the key of the service the keyword heuristic picks for the lowercased input, including when the input is already canonical. |
| Categories.ClassifyCanonicalKey | simple_app.py:407-418 | On each of the three canonical keys, the keyword heuristic picks the service that key names. So the verbatim shortcut for canonical input never disagrees with the heuristic. |
| Categories.NormalizePrecedence | simple_app.py:410-418 | An input containing `print` or `press` lowercases to the Printing Press key, even if it also holds SEO or package keywords. Otherwise `seo`/`search` gives the SEO key. Otherwise `package`/`solution` gives the Packages Solutions key. Otherwise the result is exactly `"Printing Press"`. |
| Categories.NormalizeWidgets | simple_app.py:417-418 | `"widgets"` normalises to `"Printing Press"` (the fallback). |
| Categories.DisplayNameLowersToKey | simple_app.py:411-416 | Each display name the normaliser writes lowercases to its service key. |
| Text.Contains | simple_app.py:410-415 | Python's substring test: true exactly when the pattern occurs at some position. |
| Text.Lower | simple_app.py:423 | SQLite's `LOWER` (and Python's `str.lower` on ASCII text): same length, each character lowercased with `A`..`Z` mapped to `a`..`z` and every other character kept. |
| Uploads.LastIndexBefore | simple_app.py:31 | The split point of `rsplit('.', 1)`: when found, a position before the bound holding the character, with none of it after; `None` exactly when no position before the bound holds it. |
| Uploads.AllowedFile | simple_app.py:30-31 | True exactly when the name contains a `.` and the text after its last `.`, lowercased, is one of `jpg`, `jpeg`, `png`, `gif`. |
| Uploads.AllowedUpperCaseExtension | simple_app.py:18 | `a.PNG` is accepted. |
| Uploads.RejectedDoubleExtension | simple_app.py:30-31 | `a.png.exe` is rejected: only the last extension counts. |
| Uploads.RejectedNoExtension | simple_app.py:30-31 | `noext` is rejected. |
| Catalogue.Lookup | simple_app.py:495-496 | `SELECT ... WHERE id = ?`: `None` exactly when no row has the id; otherwise a row of the table with that id. |
| Catalogue.GetPortfolioItem | simple_app.py:392-397 | The scan of the in-memory list returns the first entry with the id, and `None` exactly when no entry has it. |
| Catalogue.Filter | simple_app.py:463 | A list comprehension with a condition: an element is in the result exactly when it is in the input and satisfies the condition, and the result is no longer than the input. |
| Catalogue.FilterCounts | simple_app.py:463 | Each kept element occurs in the result as often as in the input; every other element occurs zero times. |
| Catalogue.FilterAppend | simple_app.py:463 | Filtering keeps order: filtering a concatenation is the concatenation of the filtered parts. |
| Catalogue.RemoveImages | simple_app.py:426-435 | The image-removal loop over the evicted rows removes exactly their image names from the folder and nothing else, whether or not each file was present. |
| Catalogue.Add | simple_app.py:399-475 | The new row has the next id, the normalised category and the given fields, and is last in the table. The table afterwards holds exactly the new row plus the old rows of other categories. The evicted rows' image files are gone and no other file is touched. The list is filtered the same way and the new row is its last entry. The counter advances by one. |
| Catalogue.EvictOthers | simple_app.py:525-544 | The purge keeps exactly the rows outside the key, plus the row being updated. It removes exactly the image files of the purged rows. It leaves the row being updated, the counter and the list alone. |
| Catalogue.ReviseWhereId | simple_app.py:561-571 | The `UPDATE ... WHERE id = ?` rewrites title, description and category of every row with the id. It sets the image only when one is supplied, and leaves every other row as it was. |
| Catalogue.UpdateFound | simple_app.py:502-604 | The update once the row is found. The row afterwards is the revised row. The other rows are exactly the old ones minus the purged ones. The files are exactly the old ones minus the purged rows' files and a replaced old file. The list holds the revised row and the old entries outside the new category. |
| Catalogue.Update | simple_app.py:487-604 | A missing id returns `None` and changes nothing. Otherwise the result keeps the id and `created_at`, gets the new title, description and normalised category, and is what both the table and the list return for the id afterwards. |
| Catalogue.RemoveFirst | simple_app.py:645-648 | The list loop with `del ... break`: a list without the id is returned unchanged; otherwise the result, plus one copy of the entry `Lookup` finds for the id, is the same multiset as the input. |
| Catalogue.Delete | simple_app.py:606-654 | Returns `True` exactly when the table has the id. A missing id changes nothing. Otherwise exactly the rows with other ids remain, exactly that row's image file is removed, and the list loses exactly one copy of the entry `Lookup` finds for the id (if any), keeping every other entry. |
| Catalogue.Load | simple_app.py:174-234 | A non-empty table is read into the list as it is. An empty one is seeded with three rows numbered from the counter, carrying the three clock readings in order. Either way the list equals the table, and the image folder is untouched. |
| Catalogue.FilterKeepsLookup | simple_app.py:585-586 | A filter that keeps every row with the id does not change what a lookup of the id returns. |
| Catalogue.ReplaceFirstLookup | simple_app.py:589-595 | After replace-or-append on the list, a lookup of the id returns the new row. |
| CatalogueProps.AddKeepsValid | simple_app.py:422-449 | Adding keeps the invariant, as long as no other row uses the new image name. |
| CatalogueProps.AddKeepsMirror | simple_app.py:463-465 | If the list equals the table before an add, it does afterwards. |
| CatalogueProps.AddReplaces | simple_app.py:422-465 | After an add, the new row is the only row of its category. Its id exceeds every previous id. Evicted rows and their files are gone. Rows of other categories stay, and so does the presence of their files. |
| CatalogueProps.UpdateRows | simple_app.py:524-571 | After an update, ids are still ascending. Every row is either the revised row or an untouched old row with another id that the purge spared. |
| CatalogueProps.UpdateKeepsValid | simple_app.py:524-571 | Updating keeps the invariant, as long as a supplied image name is not used by another row. |
| CatalogueProps.UpdateKeepsMirror | simple_app.py:524-595 | Under the invariant, the unconditional list filter and the conditional table purge agree, so the list still equals the table. |
| CatalogueProps.UpdateSoleInCategory | simple_app.py:524-544 | After an update, the revised row is the only row of the new category. When the category changed, the old category is left empty. |
| CatalogueProps.UpdateEvicts | simple_app.py:524-544 | After an update, the other rows of the new category are gone with their files. Rows of other categories stay, and so does the presence of their files. |
| CatalogueProps.UpdateImage | simple_app.py:546-571 | With no image, the row keeps its file and that file's presence is unchanged. With an image, the row takes the new name, and the new file is present exactly when it was before. A different old file is removed. |
| CatalogueProps.UpdateFootprint | simple_app.py:524-571 | An update creates no file, and introduces no image name other than the supplied one. |
| CatalogueProps.PurgeIsFilter | simple_app.py:525-528 | Under the invariant, the conditional purge of the table has the same effect as the unconditional filter of the list. |
| CatalogueProps.DeleteKeepsValid | simple_app.py:627-641 | Deleting keeps the invariant. |
| CatalogueProps.DeleteKeepsMirror | simple_app.py:645-648 | With unique ids, deleting the first list entry with the id equals deleting the table row, so the list still equals the table. |
| CatalogueProps.DeleteRemovesOnlyTarget | simple_app.py:627-641 | After a successful delete, no row has the id and its file is gone. Every other row stays, and so does the presence of its file. |
| CatalogueProps.RemoveMatchesFilter | simple_app.py:645-648 | On a list with ascending ids, deleting the first entry with the id equals filtering out every entry with that id. |
| CatalogueProps.AtMostThreeRows | simple_app.py:422-449 | The invariant allows at most three rows, one per service. |
| CatalogueProps.LoadKeepsValid | simple_app.py:174-234 | Loading keeps the invariant of a non-empty table, and establishes it when it seeds an empty table. Either way the list then equals the table, and a freshly seeded table has one item for each service. |
| Routes.AddPortfolio | simple_app.py:790-839 | The item is added exactly when all three fields are non-empty and the upload is present, named and allowed. The first failing check decides the outcome, in the order fields, missing part, empty filename, extension. A rejected request changes nothing. An accepted one appends the new row with the next id. |
| Routes.EditPortfolio | simple_app.py:843-894 | Checks run in order: not found in the list, empty fields, disallowed upload. A rejected request changes nothing. An accepted one leaves the table's row for the id revised with the new fields, and with the new image when a file was uploaded. |
| Routes.DeletePortfolio | simple_app.py:898-916 | Reports deletion exactly when the table had the id. A failure changes nothing. |
| Routes.AddPortfolioKeepsValid | simple_app.py:815-825 | With a fresh generated name, an add request keeps the invariant and the mirror, and the saved upload is in the folder afterwards. |
| Routes.EditPortfolioKeepsValid | simple_app.py:846-881 | With a fresh generated name, an edit request keeps the invariant and the mirror. It succeeds only for an id the table has, and the saved upload is in the folder afterwards. |
| Routes.DeletePortfolioKeepsValid | simple_app.py:898-916 | A delete request keeps the invariant and the mirror. |
| Routes.ServeKeepsFresh | simple_app.py:815-881 | A request creates no file and no row image other than its own generated name. |
| Routes.RunKeepsValid | simple_app.py:790-916 | Any sequence of add, edit and delete requests with fresh, distinct generated names keeps the invariant and the mirror. |
| UnicodeFold.PyLower | simple_app.py:408 | Python's `str.lower`, restricted to ASCII and the Kelvin sign: same length, `A`..`Z` mapped to `a`..`z`, U+212A mapped to `k`, every other character kept. |
| UnicodeFold.AddAsWritten | simple_app.py:405-465 | `add_portfolio_item` with its two lowercasings: the new row gets the category normalised under Python's lowercasing. The table keeps exactly the new row and the rows whose SQLite-lowercased category differs. The list keeps exactly the new row and the entries whose Python-lowercased category differs. |
| UnicodeFold.KelvinCategoryIsCanonical | simple_app.py:408 | Python lowercases "packages solutions" spelled with the Kelvin sign to the key, so the normaliser keeps that spelling verbatim. |
| UnicodeFold.KelvinMissedBySqlite | simple_app.py:423 | SQLite's `LOWER` of the Kelvin spelling differs from the lowercased "Packages Solutions". |
| UnicodeFold.KelvinCategoryBreaksMirror | simple_app.py:422-465 | From a one-item catalogue whose list equals the table, adding under the Kelvin spelling leaves two Packages Solutions rows in the table, drops the earlier item from the list, and so breaks the list-equals-table property. |
| UnicodeFold.KelvinKeywordFound | simple_app.py:410-415 | Python lowers "pac\u212Aage" to "package", so the keyword tests pick Packages Solutions. |
| UnicodeFold.KelvinKeywordMissed | simple_app.py:410-418 | Under ASCII lowering "pac\u212Aage" contains no keyword, so the single-lowering normaliser falls back to "Printing Press". |

## Left out

- Flask routing, sessions, `login_required`, templates and flashed texts. A request is reduced to
  its form fields, the upload's filename and an `Outcome` value. GET requests only render a form
  and are not modelled.
- A form field missing from the request is modelled as the empty string. Python treats `None` and
  `""` alike there.
- SQLite connection handling, and the users, orders and contact-message methods. The table is a
  sequence in id order; `nextId` stands for the AUTOINCREMENT counter.
- `secure_filename` and `uuid4`. The generated upload name is the parameter `stored`, and the
  preservation lemmas assume it is fresh (`Routes.Fresh`).
- `datetime.now()`: creation times are opaque string parameters. Seeding takes one per default
  item, since the source reads the clock three times (lines 204, 211, 218).
- Python's Unicode `str.lower`. Lowercasing is ASCII only, matching SQLite's `LOWER`, and one
  function serves both the Python side and the SQL deletes (lines 423, 527). The Python side is
  the canonical check (lines 408, 510), the keyword tests of the normaliser (lines 410-415,
  512-517), the purge condition (line 525) and the list filters (lines 463, 586). The source
  lowers the two sides differently, so the mirror and one-per-category results (`AddKeepsMirror`,
  `AddReplaces`, `UpdateKeepsMirror`, `UpdateSoleInCategory`, `RunKeepsValid`) hold for the source
  only for categories whose non-ASCII characters Python does not fold to ASCII. The category
  "packages solutions" spelled with the Kelvin sign U+212A in place of `k` is one that breaks
  them; see "## Findings". `UnicodeFold.PyLowerChar` covers ASCII and the Kelvin sign only, not
  the whole Unicode table.
- Categories.Normalize: lowercases ASCII only, so it differs from the source on a category that
  Python folds to ASCII. "pac\u212Aage" is Packages Solutions in the source but Printing Press in
  the model (`UnicodeFold.KelvinKeywordFound`, `UnicodeFold.KelvinKeywordMissed`).
  `UnicodeFold.AddAsWritten` runs the normaliser on Python-style lowering instead.
- Concurrency. The model serves requests one at a time in one process. The development server
  started at line 956 handles requests on threads. A deployment with several workers keeps one
  in-memory list (line 67) per worker. `Mirrored` and `RunKeepsValid` therefore describe a single
  worker serving requests one after another.
- File system errors swallowed by `try/except`, and the existence checks before `os.remove`.
  Removing a file is set removal, which is a no-op for an absent name. Saving an upload adds its
  name to the set.
- The unauthenticated `portfolio_image` route (lines 918-953). It draws and writes a placeholder
  file into the image folder for any missing name it is asked for, so a file that delete or
  eviction removed can reappear. The model's folder changes only through the catalogue operations
  and uploads.
- `run_sync_script`, the pickle snapshot and the PIL sample-image generation. These are external
  processes, file I/O and drawing; their failures are only printed.
- The 16 MiB request size limit (`MAX_CONTENT_LENGTH`). Flask raises its 413 error when the route
  first reads `request.form` (lines 796, 855), before anything has changed.
- `get_portfolio_items`, which returns the list unchanged.
- `_load_portfolio_items` builds the contact-message list, and the model leaves that out. The
  table is assumed to exist, because the constructor creates it first.
- `wsgi.py`: a deployment shim with no logic.

## Findings

| source | as written | input that shows it | evidently intended | confidence | as-written member | corrected member |
|---|---|---|---|---|---|---|
| simple_app.py:408, 423, 463 | The canonical check and the list filter use Python's Unicode `str.lower`. The `DELETE` uses SQLite's ASCII-only `LOWER`. | Add category "pac\u212Aages solutions" (Kelvin sign) while a "Packages Solutions" item exists. The old row stays in the table, and the list drops it. | One lowercasing on both sides, so one item per service and the list equal to the table (`CatalogueProps.AddReplaces`, `CatalogueProps.AddKeepsMirror`). | not executed; medium (Python lowercases U+212A to `k`; SQLite's `LOWER` folds ASCII only) | UnicodeFold.AddAsWritten, UnicodeFold.KelvinCategoryBreaksMirror | Catalogue.Add |

=== FILE: catalogue.dfy ===
/** The portfolio catalogue of `DatabaseStorage`: the `portfolio_items` table, the shared image
    folder, and the in-memory list `portfolio_items` that mirrors the table. Every operation is
    a pure function from the store before to the store after. */
module Catalogue {
  import opened Wrappers
  import opened Text
  import opened Categories

  /** One row of `portfolio_items`. `createdAt` is an opaque timestamp string. */
  datatype Item = Item(
    id: nat,
    title: string,
    description: string,
    category: string,
    image: string,
    createdAt: string)

  /** The key under which categories are compared: `LOWER(category)`. */
  function CategoryKey(x: Item): string {
    Lower(x.category)
  }

  /** Everything the catalogue operations read or write.
      - `rows`: the table in rowid (= id) order;
      - `nextId`: the AUTOINCREMENT counter, the id the next insert receives;
      - `images`: names of the files present in the image folder;
      - `cache`: the in-memory list the admin pages and `get_portfolio_item` read. */
  datatype Store = Store(rows: seq<Item>, nextId: nat, images: set<string>, cache: seq<Item>)

  /** The store after an operation together with what the operation returned. */
  datatype Effect<T> = Effect(after: Store, result: T)

  /** The elements of `xs` that satisfy `keep`, in their original order: both a
      `DELETE ... WHERE` on the table and a list comprehension filter on the cache. */
  function Filter(xs: seq<Item>, keep: Item -> bool): (r: seq<Item>)
    ensures forall x :: x in r <==> x in xs && keep(x)
    ensures |r| <= |xs|
  {
    if |xs| == 0 then []
    else if keep(xs[0]) then [xs[0]] + Filter(xs[1..], keep)
    else Filter(xs[1..], keep)
  }

  /** Filtering keeps every kept element as often as it occurs, and drops the others entirely. */
  lemma {:induction false} FilterCounts(xs: seq<Item>, keep: Item -> bool, x: Item)
    ensures multiset(Filter(xs, keep))[x] == if keep(x) then multiset(xs)[x] else 0
  {
    if |xs| > 0 {
      assert xs == [xs[0]] + xs[1..];
      FilterCounts(xs[1..], keep, x);
    }
  }

  /** Filtering keeps the order: filtering a concatenation concatenates the filtered parts. */
  lemma {:induction false} FilterAppend(xs: seq<Item>, ys: seq<Item>, keep: Item -> bool)
    ensures Filter(xs + ys, keep) == Filter(xs, keep) + Filter(ys, keep)
    decreases |xs|
  {
    if |xs| > 0 {
      assert (xs + ys)[1..] == xs[1..] + ys;
      FilterAppend(xs[1..], ys, keep);
    } else {
      assert xs + ys == ys;
    }
  }

  /** Row selectors for the `WHERE` clauses and list comprehensions of the operations. */
  function InCategory(key: string): Item -> bool {
    (x: Item) => CategoryKey(x) == key
  }

  function OutsideCategory(key: string): Item -> bool {
    (x: Item) => CategoryKey(x) != key
  }

  function OtherInCategory(key: string, id: int): Item -> bool {
    (x: Item) => CategoryKey(x) == key && x.id != id
  }

  function SelfOrOutsideCategory(key: string, id: int): Item -> bool {
    (x: Item) => !(CategoryKey(x) == key && x.id != id)
  }

  function OtherId(id: int): Item -> bool {
    (x: Item) => x.id != id
  }

  /** The position of the first row with the given id, searching from `from` onwards. */
  function IndexFrom(xs: seq<Item>, id: int, from: nat): (r: Option<nat>)
    requires from <= |xs|
    requires forall j :: 0 <= j < from ==> xs[j].id != id
    ensures r.Some? ==> r.value < |xs| && xs[r.value].id == id && forall j :: 0 <= j < r.value ==> xs[j].id != id
    ensures r.None? ==> forall j :: 0 <= j < |xs| ==> xs[j].id != id
    decreases |xs| - from
  {
    if from == |xs| then None
    else if xs[from].id == id then Some(from)
    else IndexFrom(xs, id, from + 1)
  }

  /** The position of the first row with the given id, if any. */
  function IndexOf(xs: seq<Item>, id: int): (r: Option<nat>)
    ensures r.Some? ==> r.value < |xs| && xs[r.value].id == id && forall j :: 0 <= j < r.value ==> xs[j].id != id
    ensures r.None? ==> forall j :: 0 <= j < |xs| ==> xs[j].id != id
  {
    IndexFrom(xs, id, 0)
  }

  /** The first row with the given id: `SELECT * ... WHERE id = ?` followed by `fetchone()`,
      and also the scan of `get_portfolio_item`. */
  function Lookup(xs: seq<Item>, id: int): (r: Option<Item>)
    ensures r.Some? ==> r.value in xs && r.value.id == id
    ensures r.None? <==> forall x :: x in xs ==> x.id != id
  {
    match IndexOf(xs, id)
    case None => None
    case Some(i) => Some(xs[i])
  }

  /** The image-removal loop: for each evicted row, its file is removed if it exists. */
  function RemoveImages(images: set<string>, evicted: seq<Item>): (r: set<string>)
    ensures r == images - set x | x in evicted :: x.image
  {
    if |evicted| == 0 then images
    else
      var r := RemoveImages(images - {evicted[0].image}, evicted[1..]);
      assert (set x | x in evicted :: x.image) == {evicted[0].image} + set x | x in evicted[1..] :: x.image;
      r
  }

  /** The in-memory update loop with its `for ... else`: the first entry with the id is
      replaced, and when there is none the value is appended. */
  function ReplaceFirst(xs: seq<Item>, id: int, v: Item): seq<Item> {
    match IndexOf(xs, id)
    case None => xs + [v]
    case Some(i) => xs[i := v]
  }

  /** The in-memory delete loop: the first entry with the id is removed, if there is one. */
  function RemoveFirst(xs: seq<Item>, id: int): (r: seq<Item>)
    ensures Lookup(xs, id).None? ==> r == xs
    ensures Lookup(xs, id).Some? ==> multiset(r) + multiset{Lookup(xs, id).value} == multiset(xs)
  {
    match IndexOf(xs, id)
    case None => xs
    case Some(i) =>
      assert xs == xs[..i] + [xs[i]] + xs[i + 1..];
      xs[..i] + xs[i + 1..]
  }

  /** Python truthiness of the optional image argument: `None` and `''` both mean "no image". */
  predicate Supplied(image: Option<string>) {
    image.Some? && image.value != ""
  }

  /** A row after the `UPDATE` statement: new title, description and category, and the new
      image name only when one was supplied. */
  function Revise(x: Item, title: string, description: string, category: string, image: Option<string>): Item {
    x.(title := title, description := description, category := category,
       image := if Supplied(image) then image.value else x.image)
  }

  /** `UPDATE portfolio_items SET ... WHERE id = ?`: every row with the id is revised in place. */
  function ReviseWhereId(xs: seq<Item>, id: int, title: string, description: string, category: string,
                         image: Option<string>): (r: seq<Item>)
    ensures |r| == |xs|
    ensures forall i :: 0 <= i < |xs| ==>
              r[i] == if xs[i].id == id then Revise(xs[i], title, description, category, image) else xs[i]
  {
    if |xs| == 0 then []
    else
      [if xs[0].id == id then Revise(xs[0], title, description, category, image) else xs[0]]
      + ReviseWhereId(xs[1..], id, title, description, category, image)
  }

  /** `get_portfolio_item`: a scan of the in-memory list (not of the table) for the id. */
  method GetPortfolioItem(s: Store, id: int) returns (r: Option<Item>)
    ensures r.Some? ==> r.value in s.cache && r.value.id == id
    ensures r.None? <==> forall x :: x in s.cache ==> x.id != id
    ensures r.Some? ==> exists i :: 0 <= i < |s.cache| && s.cache[i] == r.value
                                    && forall j :: 0 <= j < i ==> s.cache[j].id != id
  {
    var i := 0;
    while i < |s.cache|
      invariant 0 <= i <= |s.cache|
      invariant forall j :: 0 <= j < i ==> s.cache[j].id != id
    {
      if s.cache[i].id == id {
        return Some(s.cache[i]);
      }
      i := i + 1;
    }
    return None;
  }

  /** `add_portfolio_item`: every row whose category matches the normalised one case-insensitively
      is deleted together with its image file, then the new row is inserted with the next id;
      the in-memory list is filtered the same way and the new row appended. */
  function Add(s: Store, title: string, description: string, category: string, image: string,
               now: string): (r: Effect<Item>)
    ensures r.result == Item(s.nextId, title, description, Normalize(category), image, now)
    ensures r.after.nextId == s.nextId + 1
    ensures forall x :: x in r.after.rows <==>
              x == r.result || (x in s.rows && CategoryKey(x) != CategoryKey(r.result))
    ensures |r.after.rows| > 0 && r.after.rows[|r.after.rows| - 1] == r.result
    ensures r.after.images ==
              s.images - set x | x in s.rows && CategoryKey(x) == CategoryKey(r.result) :: x.image
    ensures forall x :: x in r.after.cache <==>
              x == r.result || (x in s.cache && CategoryKey(x) != CategoryKey(r.result))
    ensures |r.after.cache| > 0 && r.after.cache[|r.after.cache| - 1] == r.result
  {
    var normalized := Normalize(category);
    var key := Lower(normalized);
    var evicted := Filter(s.rows, InCategory(key));
    var survivors := Filter(s.rows, OutsideCategory(key));
    var item := Item(s.nextId, title, description, normalized, image, now);
    var cache := Filter(s.cache, OutsideCategory(key)) + [item];
    assert (set x | x in evicted :: x.image) == set x | x in s.rows && CategoryKey(x) == key :: x.image;
    Effect(Store(survivors + [item], s.nextId + 1, RemoveImages(s.images, evicted), cache), item)
  }

  /** The image names of the rows, other than `id`, whose category has the key. */
  function ImagesOfOthers(rows: seq<Item>, key: string, id: int): set<string> {
    set x | x in rows && x.id != id && CategoryKey(x) == key :: x.image
  }

  /** The purge inside `update_portfolio_item`: every row other than `id` whose category has the
      key is deleted from the table, and its image file removed. */
  function EvictOthers(s: Store, key: string, id: int): (r: Store)
    ensures forall x :: x in r.rows <==> x in s.rows && !(CategoryKey(x) == key && x.id != id)
    ensures r.images == s.images - ImagesOfOthers(s.rows, key, id)
    ensures Lookup(r.rows, id) == Lookup(s.rows, id)
    ensures r.nextId == s.nextId && r.cache == s.cache
  {
    var evicted := Filter(s.rows, OtherInCategory(key, id));
    var keep := SelfOrOutsideCategory(key, id);
    FilterKeepsLookup(s.rows, id, keep);
    assert (set x | x in evicted :: x.image) == ImagesOfOthers(s.rows, key, id);
    s.(rows := Filter(s.rows, keep), images := RemoveImages(s.images, evicted))
  }

  /** Whether an update purges the other rows of the new category: the category changed
      case-insensitively, or an image was supplied. */
  predicate Purges(target: Item, normalized: string, image: Option<string>) {
    CategoryKey(target) != Lower(normalized) || Supplied(image)
  }

  /** The table and folder once the purge step of an update has run (or been skipped). */
  function PurgeFor(s: Store, target: Item, normalized: string, image: Option<string>): Store {
    if Purges(target, normalized, image) then EvictOthers(s, Lower(normalized), target.id) else s
  }

  /** The old image file of the updated row is removed when a different image is supplied. */
  function DropReplacedImage(images: set<string>, target: Item, image: Option<string>): (r: set<string>)
    ensures r == images - (if Supplied(image) && image.value != target.image then {target.image} else {})
  {
    if Supplied(image) && image.value != target.image then images - {target.image} else images
  }

  /** `update_portfolio_item` once the row `target` has been read from the table. */
  function UpdateFound(s: Store, target: Item, title: string, description: string, normalized: string,
                       image: Option<string>): (r: Effect<Item>)
    requires Lookup(s.rows, target.id) == Some(target)
    ensures r.result == Revise(target, title, description, normalized, image)
    ensures Lookup(r.after.rows, target.id) == Some(r.result)
    ensures r.after.nextId == s.nextId
    ensures forall x :: x in r.after.rows && x.id != target.id <==>
              x in s.rows && x.id != target.id
              && !(Purges(target, normalized, image) && CategoryKey(x) == Lower(normalized))
    ensures r.after.images ==
              (if Purges(target, normalized, image) then s.images - ImagesOfOthers(s.rows, Lower(normalized), target.id)
               else s.images)
              - (if Supplied(image) && image.value != target.image then {target.image} else {})
    ensures forall x :: x in r.after.cache && x.id != target.id <==>
              x in s.cache && x.id != target.id && CategoryKey(x) != Lower(normalized)
    ensures Lookup(r.after.cache, target.id) == Some(r.result)
  {
    var id := target.id;
    var key := Lower(normalized);
    var purged := PurgeFor(s, target, normalized, image);
    var images := DropReplacedImage(purged.images, target, image);
    var rows := ReviseWhereId(purged.rows, id, title, description, normalized, image);
    var updated := Revise(target, title, description, normalized, image);
    var cacheKept := Filter(s.cache, SelfOrOutsideCategory(key, id));
    ReviseLookup(purged.rows, id, title, description, normalized, image);
    ReviseFrame(purged.rows, id, title, description, normalized, image);
    ReplaceFirstLookup(cacheKept, id, updated);
    Effect(Store(rows, s.nextId, images, ReplaceFirst(cacheKept, id, updated)), updated)
  }

  /** `update_portfolio_item`. A missing id changes nothing and yields `None`. Otherwise, when the
      normalised category differs case-insensitively from the row's current one or an image is
      supplied, every other row in the new category is deleted with its image; a supplied image
      that differs from the current one replaces it and the old file is removed; the row gets the
      new title, description and normalised category and keeps its id and creation time. The
      in-memory list drops every other entry in the new category unconditionally and then
      replaces (or appends) the re-read row. */
  function Update(s: Store, id: int, title: string, description: string, category: string,
                  image: Option<string>): (r: Effect<Option<Item>>)
    ensures Lookup(s.rows, id).None? ==> r == Effect(s, None)
    ensures Lookup(s.rows, id).Some? ==>
              var target := Lookup(s.rows, id).value;
              && r.result == Some(Revise(target, title, description, Normalize(category), image))
              && r.result.value.id == target.id && r.result.value.createdAt == target.createdAt
              && Lookup(r.after.rows, id) == r.result
              && Lookup(r.after.cache, id) == r.result
  {
    match Lookup(s.rows, id)
    case None => Effect(s, None)
    case Some(target) =>
      var r := UpdateFound(s, target, title, description, Normalize(category), image);
      Effect(r.after, Some(r.result))
  }

  /** Looking an id up in a non-empty sequence checks the head, then the tail. */
  lemma LookupCons(xs: seq<Item>, id: int)
    requires |xs| > 0
    ensures Lookup(xs, id) == if xs[0].id == id then Some(xs[0]) else Lookup(xs[1..], id)
  {
    if xs[0].id != id {
      match IndexOf(xs[1..], id)
      case None =>
      case Some(k) =>
        assert xs[k + 1].id == id;
        assert IndexOf(xs, id) == Some(k + 1);
    }
  }

  /** A filter that keeps every row with the id does not change which row a lookup finds. */
  lemma {:induction false} FilterKeepsLookup(xs: seq<Item>, id: int, keep: Item -> bool)
    requires forall x :: x in xs && x.id == id ==> keep(x)
    ensures Lookup(Filter(xs, keep), id) == Lookup(xs, id)
  {
    if |xs| > 0 {
      FilterKeepsLookup(xs[1..], id, keep);
      var tail := Filter(xs[1..], keep);
      LookupCons(xs, id);
      if keep(xs[0]) {
        assert Filter(xs, keep) == [xs[0]] + tail;
        LookupCons([xs[0]] + tail, id);
        assert ([xs[0]] + tail)[1..] == tail;
      } else {
        assert Filter(xs, keep) == tail;
      }
    }
  }

  /** After the `UPDATE`, re-reading the id gives the revised first row with that id. */
  lemma ReviseLookup(xs: seq<Item>, id: int, title: string, description: string,
                     category: string, image: Option<string>)
    requires IndexOf(xs, id).Some?
    ensures Lookup(ReviseWhereId(xs, id, title, description, category, image), id)
            == Some(Revise(xs[IndexOf(xs, id).value], title, description, category, image))
  {
    var ys := ReviseWhereId(xs, id, title, description, category, image);
    var i := IndexOf(xs, id).value;
    var k := IndexOf(ys, id);
    assert ys[i].id == id;
    assert k == Some(i);
  }

  /** The `UPDATE` leaves the rows with other ids as they were, and every row it touches keeps the id. */
  lemma ReviseFrame(xs: seq<Item>, id: int, title: string, description: string, category: string,
                    image: Option<string>)
    ensures forall x :: x in ReviseWhereId(xs, id, title, description, category, image) && x.id != id
                        <==> x in xs && x.id != id
  {
    var ys := ReviseWhereId(xs, id, title, description, category, image);
    forall x | x in ys && x.id != id ensures x in xs {
      var i :| 0 <= i < |ys| && ys[i] == x;
    }
    forall x | x in xs && x.id != id ensures x in ys {
      var i :| 0 <= i < |xs| && xs[i] == x;
      assert ys[i] == x;
    }
  }

  /** After the in-memory replace-or-append, scanning for the id finds the new value, and the
      entries with other ids are the ones there were. */
  lemma ReplaceFirstLookup(xs: seq<Item>, id: int, v: Item)
    requires v.id == id
    ensures Lookup(ReplaceFirst(xs, id, v), id) == Some(v)
    ensures forall x :: x in ReplaceFirst(xs, id, v) && x.id != id <==> x in xs && x.id != id
  {
    var ys := ReplaceFirst(xs, id, v);
    match IndexOf(xs, id)
    case None =>
      assert ys[|xs|].id == id;
      assert forall j :: 0 <= j < |xs| ==> ys[j].id != id;
      assert IndexOf(ys, id) == Some(|xs|);
    case Some(i) =>
      assert ys[i].id == id;
      assert forall j :: 0 <= j < i ==> ys[j].id != id;
      assert IndexOf(ys, id) == Some(i);
      forall x | x in xs && x.id != id ensures x in ys {
        var m :| 0 <= m < |xs| && xs[m] == x;
        assert ys[m] == x;
      }
  }

  /** `delete_portfolio_item`: a missing id returns false and changes nothing; otherwise the row
      and its image file are removed, the first in-memory entry with the id is dropped, and the
      result is true. */
  function Delete(s: Store, id: int): (r: Effect<bool>)
    ensures r.result <==> exists x :: x in s.rows && x.id == id
    ensures !r.result ==> r.after == s
    ensures r.result ==>
              && r.after.images == s.images - {Lookup(s.rows, id).value.image}
              && (forall x :: x in r.after.rows <==> x in s.rows && x.id != id)
              && r.after.nextId == s.nextId
              && (forall x :: x in r.after.cache ==> x in s.cache)
              && (forall x :: x in s.cache && x.id != id ==> x in r.after.cache)
              && multiset(r.after.cache)
                 + (if Lookup(s.cache, id).Some? then multiset{Lookup(s.cache, id).value} else multiset{})
                 == multiset(s.cache)
  {
    match Lookup(s.rows, id)
    case None => Effect(s, false)
    case Some(item) =>
      var rows := Filter(s.rows, OtherId(id));
      var cache := RemoveFirst(s.cache, id);
      assert forall x :: x in cache ==> x in s.cache;
      Effect(Store(rows, s.nextId, s.images - {item.image}, cache), true)
  }

  /** The texts and image files of the default items. */
  const PrintingTitle: string := "Business Cards & Brochures"
  const PrintingText: string :=
    "Professional printing services for all your business needs including business cards, brochures, banners, and more."
  const PrintingImage: string := "printing_press_brochure.jpg"
  const SeoTitle: string := "Search Engine Optimization"
  const SeoText: string :=
    "Comprehensive SEO services to improve your website's visibility in search engine results and drive more organic traffic."
  const SeoImage: string := "seo_optimization_service.jpg"
  const PackageTitle: string := "Basic Package"
  const PackageText: string :=
    "Affordable solution for small businesses including basic design services and essential marketing tools."
  const PackageImage: string := "packages_solution_basic.jpg"

  /** The three items `_load_portfolio_items` inserts into an empty table, one per service,
      numbered from the AUTOINCREMENT counter. The clock is read once per item, so each carries
      its own creation time. */
  function DefaultItems(nextId: nat, t1: string, t2: string, t3: string): seq<Item> {
    [ Item(nextId, PrintingTitle, PrintingText, PrintingPress.DisplayName(), PrintingImage, t1),
      Item(nextId + 1, SeoTitle, SeoText, Seo.DisplayName(), SeoImage, t2),
      Item(nextId + 2, PackageTitle, PackageText, PackagesSolutions.DisplayName(), PackageImage, t3) ]
  }

  /** `_load_portfolio_items`: a non-empty table is read into the in-memory list as it is; an
      empty one is first seeded with the default items, stamped `t1`, `t2` and `t3`. Loading
      leaves the image folder alone; the constructor draws the default images only afterwards. */
  function Load(s: Store, t1: string, t2: string, t3: string): (r: Store)
    ensures r.cache == r.rows
    ensures |s.rows| > 0 ==> r.rows == s.rows && r.nextId == s.nextId
    ensures |s.rows| == 0 ==>
              && r.nextId == s.nextId + 3
              && |r.rows| == 3
              && (forall x :: x in r.rows ==> s.nextId <= x.id < r.nextId)
              && [r.rows[0].createdAt, r.rows[1].createdAt, r.rows[2].createdAt] == [t1, t2, t3]
    ensures r.images == s.images
  {
    if |s.rows| > 0 then s.(cache := s.rows)
    else
      var rows := DefaultItems(s.nextId, t1, t2, t3);
      s.(rows := rows, nextId := s.nextId + 3, cache := rows)
  }
}

=== FILE: catalogue_props.dfy ===
/** The catalogue invariant — at most one row per category, every category canonical, no two
    rows naming the same image file, ids ascending and below the AUTOINCREMENT counter — and the
    proofs that add, update and delete keep it, keep the in-memory list equal to the table,
    and leave unrelated rows and files alone. */
module CatalogueProps {
  import opened Wrappers
  import opened Text
  import opened Categories
  import opened Catalogue

  /** Rows are kept in strictly ascending id order (rowid order; ids are the primary key). */
  ghost predicate IdsAscending(rows: seq<Item>) {
    forall i, j :: 0 <= i < j < |rows| ==> rows[i].id < rows[j].id
  }

  /** Every id in use lies below the AUTOINCREMENT counter. */
  ghost predicate IdsBelow(rows: seq<Item>, nextId: nat) {
    forall x :: x in rows ==> x.id < nextId
  }

  /** Every stored category lowercases to one of the three service keys. */
  ghost predicate CanonicalCategories(rows: seq<Item>) {
    forall x :: x in rows ==> IsCanonicalKey(CategoryKey(x))
  }

  /** At most one row per category, compared case-insensitively. */
  ghost predicate OnePerCategory(rows: seq<Item>) {
    forall x, y :: x in rows && y in rows && CategoryKey(x) == CategoryKey(y) ==> x == y
  }

  /** No two rows share an image file. */
  ghost predicate ExclusiveImages(rows: seq<Item>) {
    forall x, y :: x in rows && y in rows && x.image == y.image ==> x == y
  }

  ghost predicate Valid(s: Store) {
    && IdsAscending(s.rows)
    && IdsBelow(s.rows, s.nextId)
    && CanonicalCategories(s.rows)
    && OnePerCategory(s.rows)
    && ExclusiveImages(s.rows)
  }

  /** The in-memory list `portfolio_items` equals the table read in id order. */
  ghost predicate Mirrored(s: Store) {
    s.cache == s.rows
  }

  /** No row other than `id` refers to the image name. */
  ghost predicate ImageUnusedByOthers(rows: seq<Item>, name: string, id: int) {
    forall x :: x in rows && x.id != id ==> x.image != name
  }

  // ---------------------------------------------------------------------------------------
  // Facts about the sequence helpers

  lemma {:induction false} FilterAscending(xs: seq<Item>, keep: Item -> bool)
    requires IdsAscending(xs)
    ensures IdsAscending(Filter(xs, keep))
  {
    if |xs| > 0 {
      FilterAscending(xs[1..], keep);
      var tail := Filter(xs[1..], keep);
      if keep(xs[0]) {
        assert Filter(xs, keep) == [xs[0]] + tail;
        forall j | 0 <= j < |tail| ensures xs[0].id < tail[j].id {
          assert tail[j] in xs[1..];
        }
      } else {
        assert Filter(xs, keep) == tail;
      }
    }
  }

  lemma {:induction false} FilterAllKept(xs: seq<Item>, keep: Item -> bool)
    requires forall x :: x in xs ==> keep(x)
    ensures Filter(xs, keep) == xs
  {
    if |xs| > 0 {
      FilterAllKept(xs[1..], keep);
    }
  }

  /** Ascending ids are unique: an id found at `i` is found nowhere else. */
  lemma AscendingUnique(xs: seq<Item>, i: int)
    requires IdsAscending(xs) && 0 <= i < |xs|
    ensures forall j :: 0 <= j < |xs| && j != i ==> xs[j].id != xs[i].id
  {
  }

  /** With unique ids, the in-memory replace of the first match and the table's `UPDATE` of
      every match give the same sequence. */
  lemma ReplaceMatchesRevise(xs: seq<Item>, id: int, title: string, description: string,
                             category: string, image: Option<string>)
    requires IdsAscending(xs) && IndexOf(xs, id).Some?
    ensures ReplaceFirst(xs, id, Revise(xs[IndexOf(xs, id).value], title, description, category, image))
            == ReviseWhereId(xs, id, title, description, category, image)
  {
    var i := IndexOf(xs, id).value;
    AscendingUnique(xs, i);
    var a := ReplaceFirst(xs, id, Revise(xs[i], title, description, category, image));
    var b := ReviseWhereId(xs, id, title, description, category, image);
    assert |a| == |b|;
    forall j | 0 <= j < |a| ensures a[j] == b[j] {
    }
  }

  /** With unique ids, removing the first match is removing every match. */
  lemma RemoveMatchesFilter(xs: seq<Item>, id: int)
    requires IdsAscending(xs)
    ensures RemoveFirst(xs, id) == Filter(xs, OtherId(id))
  {
    match IndexOf(xs, id)
    case None =>
      FilterAllKept(xs, OtherId(id));
    case Some(i) =>
      AscendingUnique(xs, i);
      RemoveFound(xs, id, i);
  }

  lemma {:induction false} RemoveFound(xs: seq<Item>, id: int, i: nat)
    requires i < |xs| && xs[i].id == id
    requires forall j :: 0 <= j < |xs| && j != i ==> xs[j].id != id
    ensures Filter(xs, OtherId(id)) == xs[..i] + xs[i + 1..]
  {
    var keep := OtherId(id);
    if i == 0 {
      assert Filter(xs, keep) == Filter(xs[1..], keep) by {
        assert !keep(xs[0]);
      }
      assert forall x :: x in xs[1..] ==> keep(x) by {
        forall x | x in xs[1..] ensures keep(x) {
          var j :| 0 <= j < |xs[1..]| && xs[1..][j] == x;
          assert xs[j + 1] == x;
        }
      }
      FilterAllKept(xs[1..], keep);
    } else {
      assert Filter(xs, keep) == [xs[0]] + Filter(xs[1..], keep) by {
        assert keep(xs[0]);
      }
      assert Filter(xs[1..], keep) == xs[1..][..i - 1] + xs[1..][i..] by {
        RemoveFound(xs[1..], id, i - 1);
      }
      assert xs[..i] == [xs[0]] + xs[1..][..i - 1];
      assert xs[i + 1..] == xs[1..][i..];
    }
  }

  // ---------------------------------------------------------------------------------------
  // add_portfolio_item

  /** Adding keeps the invariant, provided the new image name is not already owned by a row
      (the route always passes a freshly generated name). */
  lemma AddKeepsValid(s: Store, title: string, description: string, category: string, image: string,
                      now: string)
    requires Valid(s)
    requires ImageUnusedByOthers(s.rows, image, s.nextId)
    ensures Valid(Add(s, title, description, category, image, now).after)
  {
    var r := Add(s, title, description, category, image, now);
    var key := CategoryKey(r.result);
    var survivors := Filter(s.rows, OutsideCategory(key));
    assert r.after.rows == survivors + [r.result];
    FilterAscending(s.rows, OutsideCategory(key));
    assert IdsAscending(r.after.rows) by {
      forall i, j | 0 <= i < j < |r.after.rows| ensures r.after.rows[i].id < r.after.rows[j].id {
        if j == |survivors| {
          assert r.after.rows[i] in s.rows;
        } else {
          assert r.after.rows[i] == survivors[i] && r.after.rows[j] == survivors[j];
        }
      }
    }
  }

  /** Adding keeps the in-memory list equal to the table: both drop the category and append
      the new row. */
  lemma AddKeepsMirror(s: Store, title: string, description: string, category: string, image: string,
                       now: string)
    requires Mirrored(s)
    ensures Mirrored(Add(s, title, description, category, image, now).after)
  {
  }

  /** After an add, the new row is the only row in its category; its id exceeds every earlier
      id; every evicted row's image is gone; rows of other categories stay, and so do their
      image files; the new image file is present exactly when it was before. */
  lemma AddReplaces(s: Store, title: string, description: string, category: string, image: string,
                    now: string)
    requires Valid(s)
    requires ImageUnusedByOthers(s.rows, image, s.nextId)
    ensures var r := Add(s, title, description, category, image, now);
      var key := Lower(Normalize(category));
      && (forall x :: x in r.after.rows && CategoryKey(x) == key <==> x == r.result)
      && (forall x :: x in s.rows ==> x.id < r.result.id)
      && (forall x :: x in s.rows && CategoryKey(x) == key ==> x !in r.after.rows && x.image !in r.after.images)
      && (forall x :: x in s.rows && CategoryKey(x) != key ==>
            x in r.after.rows && (x.image in r.after.images <==> x.image in s.images))
      && (image in r.after.images <==> image in s.images)
  {
  }

  // ---------------------------------------------------------------------------------------
  // update_portfolio_item

  /** In rows with ascending ids, the row a lookup finds is the only row with that id. */
  lemma AscendingLookupUnique(xs: seq<Item>, id: int)
    requires IdsAscending(xs) && Lookup(xs, id).Some?
    ensures forall x :: x in xs && x.id == id ==> x == Lookup(xs, id).value
  {
    var i := IndexOf(xs, id).value;
    AscendingUnique(xs, i);
  }

  /** The `UPDATE` statement keeps every row's id, hence the id order. */
  lemma ReviseAscending(xs: seq<Item>, id: int, title: string, description: string, category: string,
                        image: Option<string>)
    requires IdsAscending(xs)
    ensures IdsAscending(ReviseWhereId(xs, id, title, description, category, image))
  {
    var ys := ReviseWhereId(xs, id, title, description, category, image);
    assert forall i :: 0 <= i < |ys| ==> ys[i].id == xs[i].id;
  }

  /** When the invariant holds the purge step of an update is the filter the in-memory list
      applies unconditionally: without a category change or new image there is nothing else in
      the category to remove. */
  lemma PurgeIsFilter(s: Store, target: Item, normalized: string, image: Option<string>)
    requires Valid(s) && Lookup(s.rows, target.id) == Some(target)
    ensures PurgeFor(s, target, normalized, image).rows
            == Filter(s.rows, SelfOrOutsideCategory(Lower(normalized), target.id))
  {
    var key := Lower(normalized);
    var keep := SelfOrOutsideCategory(key, target.id);
    if !Purges(target, normalized, image) {
      assert forall x :: x in s.rows ==> keep(x);
      FilterAllKept(s.rows, keep);
    }
  }

  /** The table and in-memory list an update on an existing id produces. */
  lemma UpdateShape(s: Store, id: int, title: string, description: string, category: string,
                    image: Option<string>)
    requires Lookup(s.rows, id).Some?
    ensures var target := Lookup(s.rows, id).value;
      var normalized := Normalize(category);
      var r := Update(s, id, title, description, category, image);
      && r.after.rows == ReviseWhereId(PurgeFor(s, target, normalized, image).rows, id, title, description,
                                       normalized, image)
      && r.after.cache == ReplaceFirst(Filter(s.cache, SelfOrOutsideCategory(Lower(normalized), id)), id,
                                       Revise(target, title, description, normalized, image))
  {
  }

  /** Every row after an update on an existing id is the revised target or an untouched row
      with another id that the purge spared; ids stay ascending. */
  lemma UpdateRows(s: Store, id: int, title: string, description: string, category: string,
                   image: Option<string>)
    requires Valid(s) && Lookup(s.rows, id).Some?
    ensures var target := Lookup(s.rows, id).value;
      var normalized := Normalize(category);
      var r := Update(s, id, title, description, category, image);
      && r.result == Some(Revise(target, title, description, normalized, image))
      && IdsAscending(r.after.rows)
      && (forall x :: x in r.after.rows ==>
            x == r.result.value
            || (x in s.rows && x.id != id && !(Purges(target, normalized, image) && CategoryKey(x) == Lower(normalized))))
  {
    var target := Lookup(s.rows, id).value;
    var normalized := Normalize(category);
    var r := Update(s, id, title, description, category, image);
    var purged := PurgeFor(s, target, normalized, image);
    UpdateShape(s, id, title, description, category, image);
    PurgeIsFilter(s, target, normalized, image);
    FilterAscending(s.rows, SelfOrOutsideCategory(Lower(normalized), id));
    ReviseAscending(purged.rows, id, title, description, normalized, image);
    AscendingLookupUnique(r.after.rows, id);
  }

  /** Replacing `target` by `u` (same id) and dropping other rows keeps the invariant when `u`
      is canonical, owns its image alone, and, unless its category's other rows were purged,
      stays in the target's category. */
  lemma ReplaceKeepsValid(s: Store, after: Store, target: Item, u: Item, purge: bool)
    requires Valid(s) && target in s.rows
    requires after.nextId == s.nextId && IdsAscending(after.rows)
    requires u.id == target.id && IsCanonicalKey(CategoryKey(u))
    requires u.image == target.image || ImageUnusedByOthers(s.rows, u.image, target.id)
    requires !purge ==> CategoryKey(target) == CategoryKey(u)
    requires forall x :: x in after.rows ==>
               x == u || (x in s.rows && x.id != target.id && !(purge && CategoryKey(x) == CategoryKey(u)))
    ensures Valid(after)
  {
  }

  /** Updating keeps the invariant, provided a supplied image name is not owned by another row. */
  lemma UpdateKeepsValid(s: Store, id: int, title: string, description: string, category: string,
                         image: Option<string>)
    requires Valid(s)
    requires Supplied(image) ==> ImageUnusedByOthers(s.rows, image.value, id)
    ensures Valid(Update(s, id, title, description, category, image).after)
  {
    if Lookup(s.rows, id).Some? {
      var r := Update(s, id, title, description, category, image);
      var target := Lookup(s.rows, id).value;
      var normalized := Normalize(category);
      UpdateRows(s, id, title, description, category, image);
      ReplaceKeepsValid(s, r.after, target, r.result.value, Purges(target, normalized, image));
    }
  }

  /** An update on an existing id is the update of the row the table returns for it. */
  lemma UpdateIsFound(s: Store, id: int, title: string, description: string, category: string,
                      image: Option<string>)
    requires Lookup(s.rows, id).Some?
    ensures var found := UpdateFound(s, Lookup(s.rows, id).value, title, description, Normalize(category), image);
      Update(s, id, title, description, category, image) == Effect(found.after, Some(found.result))
  {
  }

  /** Updating keeps the in-memory list equal to the table. The list drops every other entry of
      the new category unconditionally while the table purges only on a category change or a
      new image; under the invariant the two agree, because without such a change the target
      is the only row of its category. */
  lemma UpdateKeepsMirror(s: Store, id: int, title: string, description: string, category: string,
                          image: Option<string>)
    requires Valid(s) && Mirrored(s)
    ensures Mirrored(Update(s, id, title, description, category, image).after)
  {
    if Lookup(s.rows, id).Some? {
      var target := Lookup(s.rows, id).value;
      var normalized := Normalize(category);
      var keep := SelfOrOutsideCategory(Lower(normalized), id);
      var kept := Filter(s.rows, keep);
      UpdateShape(s, id, title, description, category, image);
      PurgeIsFilter(s, target, normalized, image);
      FilterAscending(s.rows, keep);
      FilterKeepsLookup(s.rows, id, keep);
      ReplaceMatchesRevise(kept, id, title, description, normalized, image);
    }
  }

  /** After an update on an existing id, the updated row is the only row of the new category,
      and when the category changed, the old category is left empty. */
  lemma UpdateSoleInCategory(s: Store, id: int, title: string, description: string, category: string,
                             image: Option<string>)
    requires Valid(s) && Lookup(s.rows, id).Some?
    ensures var target := Lookup(s.rows, id).value;
      var key := Lower(Normalize(category));
      var r := Update(s, id, title, description, category, image);
      && r.result.Some?
      && (forall x :: x in r.after.rows && CategoryKey(x) == key <==> x == r.result.value)
      && (CategoryKey(target) != key ==> forall x :: x in r.after.rows ==> CategoryKey(x) != CategoryKey(target))
  {
    UpdateRows(s, id, title, description, category, image);
    var r := Update(s, id, title, description, category, image);
    assert r.result.value in r.after.rows;
  }

  /** The images after the purge and the image replacement of an update: the files of the other
      rows in the purged category are gone, and the files of rows in other categories are
      untouched. */
  lemma PurgedImages(rows: seq<Item>, images: set<string>, after: set<string>, target: Item, key: string,
                     purge: bool, dropped: set<string>)
    requires target in rows && OnePerCategory(rows) && ExclusiveImages(rows)
    requires !purge ==> CategoryKey(target) == key
    requires dropped <= {target.image}
    requires after == (if purge then images - ImagesOfOthers(rows, key, target.id) else images) - dropped
    ensures forall x :: x in rows && x.id != target.id && CategoryKey(x) == key ==> purge && x.image !in after
    ensures forall x :: x in rows && x.id != target.id && CategoryKey(x) != key ==>
              (x.image in after <==> x.image in images)
  {
    forall x | x in rows && x.id != target.id && CategoryKey(x) == key
      ensures purge && x.image in ImagesOfOthers(rows, key, target.id)
    {
    }
    forall x | x in rows && x.id != target.id && CategoryKey(x) != key
      ensures x.image !in ImagesOfOthers(rows, key, target.id) && x.image != target.image
    {
    }
  }

  /** The rows and images of the table once `target` is updated. */
  lemma FoundKeepsOtherImages(s: Store, target: Item, title: string, description: string, normalized: string,
                              image: Option<string>)
    requires Lookup(s.rows, target.id) == Some(target)
    requires OnePerCategory(s.rows) && ExclusiveImages(s.rows)
    ensures var key := Lower(normalized);
      var r := UpdateFound(s, target, title, description, normalized, image);
      && (forall x :: x in s.rows && x.id != target.id && CategoryKey(x) == key ==>
            x !in r.after.rows && x.image !in r.after.images)
      && (forall x :: x in s.rows && x.id != target.id && CategoryKey(x) != key ==>
            x in r.after.rows && (x.image in r.after.images <==> x.image in s.images))
  {
    var r := UpdateFound(s, target, title, description, normalized, image);
    PurgedImages(s.rows, s.images, r.after.images, target, Lower(normalized), Purges(target, normalized, image),
                 if Supplied(image) && image.value != target.image then {target.image} else {});
  }

  /** After an update on an existing id, the other rows of the new category are gone with their
      images, while the rows of other categories stay with their images. */
  lemma UpdateEvicts(s: Store, id: int, title: string, description: string, category: string,
                     image: Option<string>)
    requires Valid(s) && Lookup(s.rows, id).Some?
    ensures var key := Lower(Normalize(category));
      var r := Update(s, id, title, description, category, image);
      && (forall x :: x in s.rows && x.id != id && CategoryKey(x) == key ==>
            x !in r.after.rows && x.image !in r.after.images)
      && (forall x :: x in s.rows && x.id != id && CategoryKey(x) != key ==>
            x in r.after.rows && (x.image in r.after.images <==> x.image in s.images))
  {
    UpdateIsFound(s, id, title, description, category, image);
    FoundKeepsOtherImages(s, Lookup(s.rows, id).value, title, description, Normalize(category), image);
  }

  /** Image handling once `target` is updated. */
  lemma FoundImage(s: Store, target: Item, title: string, description: string, normalized: string,
                   image: Option<string>)
    requires Lookup(s.rows, target.id) == Some(target)
    requires ExclusiveImages(s.rows)
    requires Supplied(image) ==> ImageUnusedByOthers(s.rows, image.value, target.id)
    ensures var r := UpdateFound(s, target, title, description, normalized, image);
      && (!Supplied(image) ==>
            r.result.image == target.image
            && (target.image in r.after.images <==> target.image in s.images))
      && (Supplied(image) ==>
            r.result.image == image.value
            && (image.value in r.after.images <==> image.value in s.images))
      && (Supplied(image) && image.value != target.image ==> target.image !in r.after.images)
  {
    var r := UpdateFound(s, target, title, description, normalized, image);
    OwnImagesKept(s.rows, s.images, r.after.images, target, Lower(normalized), Purges(target, normalized, image), image);
  }

  /** The row's own file and a supplied name that no other row uses survive the purge; a
      different old file is the one dropped. */
  lemma OwnImagesKept(rows: seq<Item>, images: set<string>, after: set<string>, target: Item, key: string,
                      purge: bool, image: Option<string>)
    requires target in rows && ExclusiveImages(rows)
    requires Supplied(image) ==> ImageUnusedByOthers(rows, image.value, target.id)
    requires after == (if purge then images - ImagesOfOthers(rows, key, target.id) else images)
                      - (if Supplied(image) && image.value != target.image then {target.image} else {})
    ensures !Supplied(image) ==> (target.image in after <==> target.image in images)
    ensures Supplied(image) ==> (image.value in after <==> image.value in images)
    ensures Supplied(image) && image.value != target.image ==> target.image !in after
  {
    assert target.image !in ImagesOfOthers(rows, key, target.id);
    if Supplied(image) {
      assert image.value !in ImagesOfOthers(rows, key, target.id);
    }
  }

  /** Image handling of an update on an existing id: without a supplied image the row keeps
      its file and the file stays as it was; with one, the row takes the new name, the new file
      is present exactly when it was before, and a different old file is removed. */
  lemma UpdateImage(s: Store, id: int, title: string, description: string, category: string,
                    image: Option<string>)
    requires Valid(s) && Lookup(s.rows, id).Some?
    requires Supplied(image) ==> ImageUnusedByOthers(s.rows, image.value, id)
    ensures var target := Lookup(s.rows, id).value;
      var r := Update(s, id, title, description, category, image);
      && r.result.Some?
      && (!Supplied(image) ==>
            r.result.value.image == target.image
            && (target.image in r.after.images <==> target.image in s.images))
      && (Supplied(image) ==>
            r.result.value.image == image.value
            && (image.value in r.after.images <==> image.value in s.images))
      && (Supplied(image) && image.value != target.image ==> target.image !in r.after.images)
  {
    UpdateIsFound(s, id, title, description, category, image);
    FoundImage(s, Lookup(s.rows, id).value, title, description, Normalize(category), image);
  }

  /** An update creates no file, and every row image afterwards is an image some row had
      before or the supplied name. */
  lemma UpdateFootprint(s: Store, id: int, title: string, description: string, category: string,
                        image: Option<string>)
    requires Valid(s)
    ensures var r := Update(s, id, title, description, category, image);
      && r.after.images <= s.images
      && (forall x :: x in r.after.rows ==>
            (exists y :: y in s.rows && y.image == x.image) || (Supplied(image) && x.image == image.value))
  {
    if Lookup(s.rows, id).Some? {
      var target := Lookup(s.rows, id).value;
      UpdateRows(s, id, title, description, category, image);
      UpdateIsFound(s, id, title, description, category, image);
      assert target in s.rows;
    }
  }

  // ---------------------------------------------------------------------------------------
  // delete_portfolio_item

  lemma DeleteKeepsValid(s: Store, id: int)
    requires Valid(s)
    ensures Valid(Delete(s, id).after)
  {
    if Lookup(s.rows, id).Some? {
      FilterAscending(s.rows, OtherId(id));
    }
  }

  /** Deleting keeps the in-memory list equal to the table: with unique ids, dropping the first
      entry with the id is dropping the row with the id. */
  lemma DeleteKeepsMirror(s: Store, id: int)
    requires Valid(s) && Mirrored(s)
    ensures Mirrored(Delete(s, id).after)
  {
    if Lookup(s.rows, id).Some? {
      RemoveMatchesFilter(s.rows, id);
    }
  }

  /** A successful delete leaves no row with the id and removes its file; every other row stays,
      and so does every other row's file. */
  lemma DeleteRemovesOnlyTarget(s: Store, id: int)
    requires Valid(s)
    ensures var r := Delete(s, id);
      r.result ==>
        && (forall x :: x in r.after.rows ==> x.id != id)
        && Lookup(s.rows, id).value.image !in r.after.images
        && (forall x :: x in s.rows && x.id != id ==>
              x in r.after.rows && (x.image in r.after.images <==> x.image in s.images))
  {
  }

  // ---------------------------------------------------------------------------------------
  // Consequences of the invariant

  /** One row per category and three categories: the catalogue never holds more than three rows. */
  lemma AtMostThreeRows(s: Store)
    requires Valid(s)
    ensures |s.rows| <= 3
  {
    if |s.rows| > 3 {
      FourRowsShareCategory(s.rows);
    }
  }

  /** Pigeonhole on the three service keys: among four canonical rows two share a category. */
  lemma FourRowsShareCategory(rows: seq<Item>)
    requires |rows| >= 4 && CanonicalCategories(rows)
    ensures exists i, j :: 0 <= i < j < 4 && CategoryKey(rows[i]) == CategoryKey(rows[j])
  {
    assert rows[0] in rows && rows[1] in rows && rows[2] in rows && rows[3] in rows;
  }

  // ---------------------------------------------------------------------------------------
  // _load_portfolio_items

  /** Each service has a default item whose category is its display name. */
  lemma DefaultsCoverServices(nextId: nat, t1: string, t2: string, t3: string, svc: Service)
    ensures exists x :: x in DefaultItems(nextId, t1, t2, t3) && x.category == svc.DisplayName()
  {
    var rows := DefaultItems(nextId, t1, t2, t3);
    match svc
    case PrintingPress => assert rows[0] in rows;
    case Seo => assert rows[1] in rows;
    case PackagesSolutions => assert rows[2] in rows;
  }

  /** Loading establishes the invariant on an empty table and keeps it on a non-empty one, and
      leaves the list equal to the table; a seeded table holds one item for every service. */
  lemma LoadKeepsValid(s: Store, t1: string, t2: string, t3: string)
    requires Valid(s)
    ensures Valid(Load(s, t1, t2, t3)) && Mirrored(Load(s, t1, t2, t3))
    ensures |s.rows| == 0 ==>
              forall svc: Service :: exists x :: x in Load(s, t1, t2, t3).rows && x.category == svc.DisplayName()
  {
    if |s.rows| == 0 {
      var rows := DefaultItems(s.nextId, t1, t2, t3);
      DisplayNameLowersToKey(PrintingPress);
      DisplayNameLowersToKey(Seo);
      DisplayNameLowersToKey(PackagesSolutions);
      assert rows[0] in rows && rows[1] in rows && rows[2] in rows;
      forall svc: Service
        ensures exists x :: x in Load(s, t1, t2, t3).rows && x.category == svc.DisplayName()
      {
        DefaultsCoverServices(s.nextId, t1, t2, t3, svc);
      }
    }
  }
}

=== FILE: categories.dfy ===
/** The category normaliser of `add_portfolio_item` and `update_portfolio_item`: free text is
    mapped onto one of the agency's three services by case-insensitive keyword matching. */
module Categories {
  import opened Text

  /** The three services a portfolio item can belong to. */
  datatype Service = PrintingPress | Seo | PackagesSolutions {

    /** The name the normaliser writes when it has to pick a service itself. */
    function DisplayName(): string {
      match this
      case PrintingPress => "Printing Press"
      case Seo => "SEO"
      case PackagesSolutions => "Packages Solutions"
    }

    /** The lowercased name; categories are always compared through this key. */
    function Key(): string {
      match this
      case PrintingPress => "printing press"
      case Seo => "seo"
      case PackagesSolutions => "packages solutions"
    }
  }

  /** A lowercased category that names one of the services exactly. */
  predicate IsCanonicalKey(key: string) {
    key == "printing press" || key == "seo" || key == "packages solutions"
  }

  /** The service a canonical key names. */
  function ServiceOfKey(key: string): (svc: Service)
    requires IsCanonicalKey(key)
    ensures svc.Key() == key
  {
    if key == "printing press" then PrintingPress
    else if key == "seo" then Seo
    else PackagesSolutions
  }

  /** Lowercasing each display name gives that service's key. */
  lemma DisplayNameLowersToKey(svc: Service)
    ensures Lower(svc.DisplayName()) == svc.Key()
  {
    var d, k := svc.DisplayName(), svc.Key();
    assert |Lower(d)| == |k|;
    forall i | 0 <= i < |k|
      ensures Lower(d)[i] == k[i]
    {
    }
  }

  /** The keyword heuristic, stated with the substring specification: `print`/`press` wins over
      `seo`/`search`, which wins over `package`/`solution`; anything else is printing press. */
  ghost function Classify(lowered: string): Service {
    if Occurs(lowered, "print") || Occurs(lowered, "press") then PrintingPress
    else if Occurs(lowered, "seo") || Occurs(lowered, "search") then Seo
    else if Occurs(lowered, "package") || Occurs(lowered, "solution") then PackagesSolutions
    else PrintingPress
  }

  /** The normaliser, given the category and its lowercase form `lowered`. A category whose
      lowercase form is already a key is kept verbatim, casing included; any other text is
      replaced by the display name of the first keyword group its lowercase form contains, or by
      "Printing Press" when it contains none. */
  function NormalizeFolded(category: string, lowered: string): (r: string)
    ensures IsCanonicalKey(lowered) ==> r == category
    ensures !IsCanonicalKey(lowered) ==> r == Classify(lowered).DisplayName()
  {
    if IsCanonicalKey(lowered) then
      category
    else
      var svc :=
        if Contains(lowered, "print") || Contains(lowered, "press") then PrintingPress
        else if Contains(lowered, "seo") || Contains(lowered, "search") then Seo
        else if Contains(lowered, "package") || Contains(lowered, "solution") then PackagesSolutions
        else PrintingPress;
      svc.DisplayName()
  }

  /** The normaliser, lowercasing the category itself. */
  function Normalize(category: string): (r: string)
    ensures IsCanonicalKey(Lower(r))
    ensures IsCanonicalKey(Lower(category)) ==> r == category
    ensures !IsCanonicalKey(Lower(category)) ==> r == Classify(Lower(category)).DisplayName()
  {
    var lowered := Lower(category);
    DisplayNameLowersToKey(Classify(lowered));
    NormalizeFolded(category, lowered)
  }

  /** Normalising twice is normalising once: the first result already lowercases to a key,
      so the second call keeps it verbatim. */
  lemma NormalizeIdempotent(category: string)
    ensures Normalize(Normalize(category)) == Normalize(category)
  {
  }

  /** "seo" does not occur in "packages solutions"; checked four start positions at a time. */
  lemma SeoNotInPackagesKey()
    ensures !Occurs("packages solutions", "seo")
  {
    assert !Scan("packages solutions", "seo", 12);
    assert !Scan("packages solutions", "seo", 8);
    assert !Scan("packages solutions", "seo", 4);
    assert !Scan("packages solutions", "seo", 0);
    ScanSpec("packages solutions", "seo", 0);
  }

  /** "packages solutions" holds no printing-press or SEO keyword, only "package". */
  lemma PackagesKeyClassified()
    ensures Classify("packages solutions") == PackagesSolutions
  {
    var key := "packages solutions";
    MissingCharNotOccurs(key, "print", 'r');
    MissingCharNotOccurs(key, "press", 'r');
    MissingCharNotOccurs(key, "search", 'r');
    SeoNotInPackagesKey();
    assert OccursAt(key, "package", 0);
  }

  /** Each canonical key is classified as the service it names, so the verbatim branch of
      the normaliser never disagrees with the keyword heuristic. */
  lemma ClassifyCanonicalKey(key: string)
    requires IsCanonicalKey(key)
    ensures Classify(key) == ServiceOfKey(key)
  {
    if key == "printing press" {
      assert OccursAt(key, "print", 0);
    } else if key == "seo" {
      assert OccursAt(key, "seo", 0);
    } else {
      PackagesKeyClassified();
    }
  }

  /** Whatever the input, the normalised category lowercases to the key of the service the
      keyword heuristic picks for it. */
  lemma NormalizeFollowsClassify(category: string)
    ensures Lower(Normalize(category)) == Classify(Lower(category)).Key()
  {
    var lowered := Lower(category);
    if IsCanonicalKey(lowered) {
      ClassifyCanonicalKey(lowered);
    } else {
      DisplayNameLowersToKey(Classify(lowered));
    }
  }

  /** Keyword precedence and fallback, case-insensitively: `print`/`press` beats every other
      keyword; then `seo`/`search`; then `package`/`solution`; otherwise printing press.
      A non-canonical input gets exactly the display name. */
  lemma NormalizePrecedence(category: string)
    ensures var lowered := Lower(category);
      && ((Occurs(lowered, "print") || Occurs(lowered, "press")) ==>
            Lower(Normalize(category)) == "printing press")
      && (!Occurs(lowered, "print") && !Occurs(lowered, "press")
          && (Occurs(lowered, "seo") || Occurs(lowered, "search")) ==>
            Lower(Normalize(category)) == "seo")
      && (!Occurs(lowered, "print") && !Occurs(lowered, "press")
          && !Occurs(lowered, "seo") && !Occurs(lowered, "search")
          && (Occurs(lowered, "package") || Occurs(lowered, "solution")) ==>
            Lower(Normalize(category)) == "packages solutions")
      && (!Occurs(lowered, "print") && !Occurs(lowered, "press")
          && !Occurs(lowered, "seo") && !Occurs(lowered, "search")
          && !Occurs(lowered, "package") && !Occurs(lowered, "solution") ==>
            Normalize(category) == "Printing Press")
  {
    NormalizeFollowsClassify(category);
    var lowered := Lower(category);
    if IsCanonicalKey(lowered) {
      ClassifyCanonicalKey(lowered);
      if lowered == "printing press" {
        assert OccursAt(lowered, "print", 0);
      }
    }
  }

  /** An unrecognised category such as "widgets" silently becomes "Printing Press". */
  lemma NormalizeWidgets()
    ensures Normalize("widgets") == "Printing Press"
  {
    var w := "widgets";
    LowerOfLower(w);
    MissingCharNotOccurs(w, "print", 'p');
    MissingCharNotOccurs(w, "press", 'p');
    MissingCharNotOccurs(w, "seo", 'o');
    MissingCharNotOccurs(w, "search", 'a');
    MissingCharNotOccurs(w, "package", 'p');
    MissingCharNotOccurs(w, "solution", 'o');
  }
}

=== FILE: routes.dfy ===
/** The request guards of the `add_portfolio`, `edit_portfolio` and `delete_portfolio` routes:
    which form and upload checks reject a request before the catalogue changes, and which
    catalogue operation an accepted request runs. Rendering, redirects and flashed messages are
    reduced to the `Outcome` a request ends with; saving an upload adds its generated name to
    the image folder. */
module Routes {
  import opened Wrappers
  import opened Text
  import opened Categories
  import opened Uploads
  import opened Catalogue
  import opened CatalogueProps

  /** The form fields of a portfolio request; a field missing from the form reads as "". */
  datatype Form = Form(title: string, description: string, category: string)

  /** How a request ends, one value per flashed message. */
  datatype Outcome =
    | MissingFields
    | NoImageUploaded
    | NoImageSelected
    | InvalidFileType
    | ItemNotFound
    | ItemAdded
    | ItemUpdated
    | ItemDeleted
    | DeleteFailed

  /** Title, description and category are all non-empty. */
  predicate Filled(form: Form) {
    form.title != "" && form.description != "" && form.category != ""
  }

  /** The upload an add request must carry: a file part whose filename is non-empty and allowed. */
  predicate AcceptableUpload(file: Option<string>) {
    file.Some? && file.value != "" && AllowedFile(file.value)
  }

  /** An edit request replaces the image when it carries a file part with a non-empty name. */
  predicate Uploaded(file: Option<string>) {
    file.Some? && file.value != ""
  }

  /** A generated upload name no file and no row uses yet. */
  ghost predicate Fresh(s: Store, stored: string) {
    stored != "" && stored !in s.images && forall x :: x in s.rows ==> x.image != stored
  }

  /** `add_portfolio` on POST. `file` is the filename of the `image` part (`None` when the part is
      absent) and `stored` the name the upload is saved under. Empty fields are reported first,
      then a missing part, an empty filename, and a disallowed extension; only a request passing
      all four saves the file and adds the item. */
  function AddPortfolio(s: Store, form: Form, file: Option<string>, stored: string, now: string): (r: Effect<Outcome>)
    ensures r.result == ItemAdded <==> Filled(form) && AcceptableUpload(file)
    ensures r.result == MissingFields <==> !Filled(form)
    ensures r.result == NoImageUploaded <==> Filled(form) && file.None?
    ensures r.result == NoImageSelected <==> Filled(form) && file == Some("")
    ensures r.result == InvalidFileType <==> Filled(form) && Uploaded(file) && !AllowedFile(file.value)
    ensures r.result != ItemAdded ==> r.after == s
    ensures r.result == ItemAdded ==>
              && r.after.nextId == s.nextId + 1
              && |r.after.rows| > 0
              && r.after.rows[|r.after.rows| - 1]
                 == Item(s.nextId, form.title, form.description, Normalize(form.category), stored, now)
  {
    if !Filled(form) then Effect(s, MissingFields)
    else match file
      case None => Effect(s, NoImageUploaded)
      case Some(name) =>
        if name == "" then Effect(s, NoImageSelected)
        else if !AllowedFile(name) then Effect(s, InvalidFileType)
        else
          var saved := s.(images := s.images + {stored});
          var added := Add(saved, form.title, form.description, form.category, stored, now);
          Effect(added.after, ItemAdded)
  }

  /** `edit_portfolio` on POST. The item is looked up in the in-memory list first; then the fields
      are checked; a file part with a non-empty name must have an allowed extension and is saved
      under `stored`. The update then runs against the table, and the request reports success
      whatever the update returned. */
  function EditPortfolio(s: Store, id: int, form: Form, file: Option<string>, stored: string): (r: Effect<Outcome>)
    ensures r.result == ItemNotFound <==> Lookup(s.cache, id).None?
    ensures r.result == MissingFields <==> Lookup(s.cache, id).Some? && !Filled(form)
    ensures r.result == InvalidFileType <==>
              Lookup(s.cache, id).Some? && Filled(form) && Uploaded(file) && !AllowedFile(file.value)
    ensures r.result == ItemUpdated <==>
              Lookup(s.cache, id).Some? && Filled(form) && (Uploaded(file) ==> AllowedFile(file.value))
    ensures r.result != ItemUpdated ==> r.after == s
    ensures r.result == ItemUpdated ==>
              Lookup(r.after.rows, id) ==
                match Lookup(s.rows, id)
                case None => None
                case Some(target) =>
                  Some(Revise(target, form.title, form.description, Normalize(form.category),
                              if Uploaded(file) then Some(stored) else None))
  {
    if Lookup(s.cache, id).None? then Effect(s, ItemNotFound)
    else if !Filled(form) then Effect(s, MissingFields)
    else if Uploaded(file) && !AllowedFile(file.value) then Effect(s, InvalidFileType)
    else
      var saved := if Uploaded(file) then s.(images := s.images + {stored}) else s;
      var image := if Uploaded(file) then Some(stored) else None;
      var updated := Update(saved, id, form.title, form.description, form.category, image);
      Effect(updated.after, ItemUpdated)
  }

  /** `delete_portfolio`: the outcome reports whether the table had the id. */
  function DeletePortfolio(s: Store, id: int): (r: Effect<Outcome>)
    ensures r.result == ItemDeleted <==> exists x :: x in s.rows && x.id == id
    ensures r.result == ItemDeleted || r.result == DeleteFailed
    ensures r.result == DeleteFailed ==> r.after == s
    ensures forall x :: x in r.after.rows ==> x in s.rows && x.id != id
  {
    var deleted := Delete(s, id);
    Effect(deleted.after, if deleted.result then ItemDeleted else DeleteFailed)
  }

  // ---------------------------------------------------------------------------------------
  // The invariant across requests

  /** Saving an upload touches only the image folder, so the invariant of the rows survives it. */
  lemma SaveKeepsValid(s: Store, stored: string)
    requires Valid(s)
    ensures Valid(s.(images := s.images + {stored}))
  {
  }

  /** With the list equal to the table, the route's lookup in the list finds the table's row. */
  lemma MirroredLookup(s: Store, id: int)
    requires Mirrored(s)
    ensures Lookup(s.cache, id) == Lookup(s.rows, id)
  {
  }

  /** An accepted add request keeps the invariant and the list equal to the table, and the saved
      upload is in the folder afterwards, provided its generated name is fresh. */
  lemma AddPortfolioKeepsValid(s: Store, form: Form, file: Option<string>, stored: string, now: string)
    requires Valid(s) && Mirrored(s) && Fresh(s, stored)
    ensures var r := AddPortfolio(s, form, file, stored, now);
      && Valid(r.after) && Mirrored(r.after)
      && (r.result == ItemAdded ==> stored in r.after.images)
  {
    if Filled(form) && AcceptableUpload(file) {
      var saved := s.(images := s.images + {stored});
      SaveKeepsValid(s, stored);
      AddKeepsValid(saved, form.title, form.description, form.category, stored, now);
      AddKeepsMirror(saved, form.title, form.description, form.category, stored, now);
    }
  }

  /** An accepted edit request keeps the invariant and the list equal to the table; it was
      accepted only for an id the table has, and a saved upload is in the folder afterwards. */
  lemma EditPortfolioKeepsValid(s: Store, id: int, form: Form, file: Option<string>, stored: string)
    requires Valid(s) && Mirrored(s) && Fresh(s, stored)
    ensures var r := EditPortfolio(s, id, form, file, stored);
      && Valid(r.after) && Mirrored(r.after)
      && (r.result == ItemUpdated ==> Lookup(s.rows, id).Some?)
      && (r.result == ItemUpdated && Uploaded(file) ==> stored in r.after.images)
  {
    MirroredLookup(s, id);
    var saved := if Uploaded(file) then s.(images := s.images + {stored}) else s;
    var image := if Uploaded(file) then Some(stored) else None;
    SaveKeepsValid(s, stored);
    UpdateKeepsValid(saved, id, form.title, form.description, form.category, image);
    UpdateKeepsMirror(saved, id, form.title, form.description, form.category, image);
    if Lookup(s.rows, id).Some? {
      UpdateImage(saved, id, form.title, form.description, form.category, image);
    }
  }

  lemma DeletePortfolioKeepsValid(s: Store, id: int)
    requires Valid(s) && Mirrored(s)
    ensures var r := DeletePortfolio(s, id);
      Valid(r.after) && Mirrored(r.after)
  {
    DeleteKeepsValid(s, id);
    DeleteKeepsMirror(s, id);
  }

  /** One request to the three portfolio routes. */
  datatype Request =
    | AddRequest(form: Form, file: Option<string>, stored: string, now: string)
    | EditRequest(id: int, form: Form, file: Option<string>, stored: string)
    | DeleteRequest(id: int)

  function Serve(s: Store, req: Request): Effect<Outcome> {
    match req
    case AddRequest(form, file, stored, now) => AddPortfolio(s, form, file, stored, now)
    case EditRequest(id, form, file, stored) => EditPortfolio(s, id, form, file, stored)
    case DeleteRequest(id) => DeletePortfolio(s, id)
  }

  /** The catalogue after serving the requests in order. */
  function Run(s: Store, reqs: seq<Request>): Store
    decreases |reqs|
  {
    if |reqs| == 0 then s else Run(Serve(s, reqs[0]).after, reqs[1..])
  }

  /** Every generated upload name in the requests is fresh for the starting catalogue, and no
      two requests generate the same name. */
  ghost predicate FreshNames(s: Store, reqs: seq<Request>) {
    && (forall i :: 0 <= i < |reqs| && !reqs[i].DeleteRequest? ==> Fresh(s, reqs[i].stored))
    && (forall i, j :: 0 <= i < j < |reqs| && !reqs[i].DeleteRequest? && !reqs[j].DeleteRequest? ==>
          reqs[i].stored != reqs[j].stored)
  }

  /** An add request creates no file and no row image other than its generated name. */
  lemma AddPortfolioKeepsFresh(s: Store, form: Form, file: Option<string>, stored: string, now: string,
                               name: string)
    requires Fresh(s, name) && name != stored
    ensures Fresh(AddPortfolio(s, form, file, stored, now).after, name)
  {
  }

  /** An edit request creates no file and no row image other than its generated name. */
  lemma EditPortfolioKeepsFresh(s: Store, id: int, form: Form, file: Option<string>, stored: string,
                                name: string)
    requires Valid(s) && Fresh(s, name) && name != stored
    ensures Fresh(EditPortfolio(s, id, form, file, stored).after, name)
  {
    var saved := if Uploaded(file) then s.(images := s.images + {stored}) else s;
    var image := if Uploaded(file) then Some(stored) else None;
    SaveKeepsValid(s, stored);
    UpdateFootprint(saved, id, form.title, form.description, form.category, image);
  }

  /** Any request keeps the invariant and the list equal to the table when its generated name
      is fresh. */
  lemma ServeKeepsValid(s: Store, req: Request)
    requires Valid(s) && Mirrored(s)
    requires !req.DeleteRequest? ==> Fresh(s, req.stored)
    ensures Valid(Serve(s, req).after) && Mirrored(Serve(s, req).after)
  {
    match req
    case AddRequest(form, file, stored, now) => AddPortfolioKeepsValid(s, form, file, stored, now);
    case EditRequest(id, form, file, stored) => EditPortfolioKeepsValid(s, id, form, file, stored);
    case DeleteRequest(id) => DeletePortfolioKeepsValid(s, id);
  }

  /** Any request keeps fresh every name other than its own generated one. */
  lemma ServeKeepsFresh(s: Store, req: Request, name: string)
    requires Valid(s) && Fresh(s, name)
    requires !req.DeleteRequest? ==> name != req.stored
    ensures Fresh(Serve(s, req).after, name)
  {
    match req
    case AddRequest(form, file, stored, now) => AddPortfolioKeepsFresh(s, form, file, stored, now, name);
    case EditRequest(id, form, file, stored) => EditPortfolioKeepsFresh(s, id, form, file, stored, name);
    case DeleteRequest(id) =>
  }

  /** The names of the remaining requests stay fresh and distinct once the first is served. */
  lemma FreshNamesTail(s: Store, reqs: seq<Request>)
    requires Valid(s) && |reqs| > 0 && FreshNames(s, reqs)
    ensures FreshNames(Serve(s, reqs[0]).after, reqs[1..])
  {
    var rest := reqs[1..];
    forall i | 0 <= i < |rest| && !rest[i].DeleteRequest?
      ensures Fresh(Serve(s, reqs[0]).after, rest[i].stored)
    {
      assert rest[i] == reqs[i + 1];
      ServeKeepsFresh(s, reqs[0], rest[i].stored);
    }
    forall i, j | 0 <= i < j < |rest| && !rest[i].DeleteRequest? && !rest[j].DeleteRequest?
      ensures rest[i].stored != rest[j].stored
    {
      assert rest[i] == reqs[i + 1] && rest[j] == reqs[j + 1];
    }
  }

  /** Serving any sequence of requests keeps the invariant and the list equal to the table,
      provided the generated upload names are fresh and distinct. */
  lemma {:induction false} RunKeepsValid(s: Store, reqs: seq<Request>)
    requires Valid(s) && Mirrored(s) && FreshNames(s, reqs)
    ensures Valid(Run(s, reqs)) && Mirrored(Run(s, reqs))
    decreases |reqs|
  {
    if |reqs| > 0 {
      ServeKeepsValid(s, reqs[0]);
      FreshNamesTail(s, reqs);
      RunKeepsValid(Serve(s, reqs[0]).after, reqs[1..]);
    }
  }
}

=== FILE: text.dfy ===
/** Character-level text helpers: ASCII lowercasing (what SQLite's LOWER does, and what
    Python's `str.lower` does on ASCII text) and substring search (Python's `in` on strings). */
module Text {

  /** Lowercases one character; characters outside `A`..`Z` are left alone. */
  function LowerChar(c: char): char {
    if 'A' <= c <= 'Z' then (c as int + 32) as char else c
  }

  /** `s.lower()` on ASCII text. */
  function Lower(s: string): (r: string)
    ensures |r| == |s|
    ensures forall i :: 0 <= i < |s| ==> r[i] == LowerChar(s[i])
  {
    seq(|s|, i requires 0 <= i < |s| => LowerChar(s[i]))
  }

  /** A lowercased string has no upper-case letter left. */
  predicate IsLower(s: string) {
    forall i :: 0 <= i < |s| ==> !('A' <= s[i] <= 'Z')
  }

  /** Lowercasing already-lowercase text changes nothing. */
  lemma LowerOfLower(s: string)
    requires IsLower(s)
    ensures Lower(s) == s
  {
  }

  /** `pat` occurs in `s` starting at index `i`. */
  ghost predicate OccursAt(s: string, pat: string, i: int) {
    0 <= i && i + |pat| <= |s| && s[i..i + |pat|] == pat
  }

  /** The specification of Python's `pat in s` for strings. */
  ghost predicate Occurs(s: string, pat: string) {
    exists i :: OccursAt(s, pat, i)
  }

  /** `pat[k..]` lines up with `s` at offset `i + k`; compared character by character. */
  function MatchesFrom(s: string, pat: string, i: nat, k: nat): bool
    decreases |pat| - k
  {
    if k >= |pat| then i + |pat| <= |s|
    else if i + k >= |s| then false
    else s[i + k] == pat[k] && MatchesFrom(s, pat, i, k + 1)
  }

  /** Executable substring search from position `from` rightwards. */
  function Scan(s: string, pat: string, from: nat): bool
    decreases |s| - from
  {
    if from + |pat| > |s| then false
    else MatchesFrom(s, pat, from, 0) || Scan(s, pat, from + 1)
  }

  lemma {:induction false} MatchesFromSpec(s: string, pat: string, i: nat, k: nat)
    requires k <= |pat|
    ensures MatchesFrom(s, pat, i, k) <==> i + |pat| <= |s| && forall j :: k <= j < |pat| ==> s[i + j] == pat[j]
    decreases |pat| - k
  {
    if k < |pat| && i + k < |s| {
      MatchesFromSpec(s, pat, i, k + 1);
    }
  }

  /** The character comparison at position `i` decides whether `pat` occurs there. */
  lemma MatchesAtOccurs(s: string, pat: string, i: nat)
    ensures MatchesFrom(s, pat, i, 0) <==> OccursAt(s, pat, i)
  {
    MatchesFromSpec(s, pat, i, 0);
    if MatchesFrom(s, pat, i, 0) {
      assert s[i..i + |pat|] == pat;
    }
  }

  /** The scan finds exactly the occurrences starting at `from` or later. */
  lemma {:induction false} ScanSpec(s: string, pat: string, from: nat)
    ensures Scan(s, pat, from) <==> exists i :: from <= i && OccursAt(s, pat, i)
    decreases |s| - from
  {
    if from + |pat| <= |s| {
      MatchesAtOccurs(s, pat, from);
      ScanSpec(s, pat, from + 1);
      assert (exists i :: from <= i && OccursAt(s, pat, i)) ==>
             OccursAt(s, pat, from) || exists i :: from + 1 <= i && OccursAt(s, pat, i);
    }
  }

  /** Python's `pat in s`. */
  function Contains(s: string, pat: string): (b: bool)
    ensures b <==> Occurs(s, pat)
  {
    ScanSpec(s, pat, 0);
    Scan(s, pat, 0)
  }

  /** A pattern with a character the text lacks does not occur in it. */
  lemma MissingCharNotOccurs(s: string, pat: string, c: char)
    requires c in pat && c !in s
    ensures !Occurs(s, pat)
  {
  }
}

=== FILE: unicode_fold.dfy ===
/** `add_portfolio_item` as written, with its two different lowercasings. The canonical check and
    the in-memory filter use Python's `str.lower`, which folds some non-ASCII letters to ASCII.
    The `DELETE` uses SQLite's `LOWER`, which folds ASCII letters only. On a category containing
    the Kelvin sign (U+212A, which Python lowercases to `k`) the two disagree. The table then keeps
    two rows of one service, and the list stops being equal to the table. The rest of the model
    uses a single lowercasing for both sides, which is the behaviour the code evidently intends. */
module UnicodeFold {
  import opened Text
  import opened Categories
  import opened Catalogue
  import opened CatalogueProps

  /** Python's `str.lower` on one character. It covers ASCII and the Kelvin sign only; the rest
      of the Unicode case table is not part of this model. */
  function PyLowerChar(c: char): char {
    if 'A' <= c <= 'Z' then (c as int + 32) as char
    else if c == '\U{212A}' then 'k'
    else c
  }

  function PyLower(s: string): (r: string)
    ensures |r| == |s|
    ensures forall i :: 0 <= i < |s| ==> r[i] == PyLowerChar(s[i])
  {
    seq(|s|, i requires 0 <= i < |s| => PyLowerChar(s[i]))
  }

  /** `add_portfolio_item` with its two lowercasings: the normaliser and the list filter see Python's
      lowercasing, while the `DELETE ... WHERE LOWER(category) = LOWER(?)` sees SQLite's. */
  function AddAsWritten(s: Store, title: string, description: string, category: string, image: string,
                        now: string): (r: Effect<Item>)
    ensures r.result == Item(s.nextId, title, description, NormalizeFolded(category, PyLower(category)), image, now)
    ensures forall x :: x in r.after.rows <==>
              x == r.result || (x in s.rows && Lower(x.category) != Lower(r.result.category))
    ensures forall x :: x in r.after.cache <==>
              x == r.result || (x in s.cache && PyLower(x.category) != PyLower(r.result.category))
  {
    var normalized := NormalizeFolded(category, PyLower(category));
    var key := Lower(normalized);
    var evicted := Filter(s.rows, InCategory(key));
    var item := Item(s.nextId, title, description, normalized, image, now);
    var cache := Filter(s.cache, (x: Item) => PyLower(x.category) != PyLower(normalized)) + [item];
    Effect(Store(Filter(s.rows, OutsideCategory(key)) + [item], s.nextId + 1, RemoveImages(s.images, evicted), cache),
           item)
  }

  /** "packages solutions" spelled with the Kelvin sign in place of the `k`. */
  const KelvinPackages: string := "pac\U{212A}ages solutions"

  /** Python lowercases the Kelvin spelling to the key "packages solutions", so the normaliser
      keeps it verbatim. */
  lemma KelvinCategoryIsCanonical()
    ensures PyLower(KelvinPackages) == "packages solutions"
    ensures NormalizeFolded(KelvinPackages, PyLower(KelvinPackages)) == KelvinPackages
  {
    assert PyLower(KelvinPackages) == "packages solutions";
  }

  /** SQLite's `LOWER` leaves the Kelvin sign alone, so the table does not see the Kelvin
      spelling as the Packages Solutions category. */
  lemma KelvinMissedBySqlite()
    ensures Lower(KelvinPackages) != Lower(PackagesSolutions.DisplayName())
  {
    DisplayNameLowersToKey(PackagesSolutions);
    assert Lower(KelvinPackages)[3] == '\U{212A}';
  }

  /** Python lowercases the display name to the key. */
  lemma PackagesPyLower()
    ensures PyLower(PackagesSolutions.DisplayName()) == "packages solutions"
  {
    assert PyLower(PackagesSolutions.DisplayName()) == "packages solutions";
  }

  /** The counterexample. Start from a catalogue holding one Packages Solutions item, with the
      list equal to the table. Adding an item under the Kelvin spelling leaves both rows in the
      table, because SQLite's `LOWER` does not fold the Kelvin sign. The list, which Python
      lowercases, drops the earlier item. Both rows are Packages Solutions to Python, and the
      list is no longer the table. */
  lemma KelvinCategoryBreaksMirror()
    ensures var prior := Item(1, "Basic Package", "d", PackagesSolutions.DisplayName(), "a.jpg", "t0");
      var s := Store([prior], 2, {"a.jpg"}, [prior]);
      var r := AddAsWritten(s, "Kit", "d", KelvinPackages, "b.jpg", "t1");
      && Mirrored(s)
      && prior in r.after.rows && r.result in r.after.rows
      && prior.id != r.result.id
      && PyLower(prior.category) == PyLower(r.result.category) == "packages solutions"
      && prior !in r.after.cache
      && !Mirrored(r.after)
  {
    var prior := Item(1, "Basic Package", "d", PackagesSolutions.DisplayName(), "a.jpg", "t0");
    KelvinCategoryIsCanonical();
    KelvinMissedBySqlite();
    PackagesPyLower();
  }

  /** "package" spelled with the Kelvin sign in place of the `k`. */
  const KelvinPackage: string := "pac\U{212A}age"

  /** The keyword tests see Python's lowering too: the Kelvin spelling lowers to "package", so
      the source files it under Packages Solutions. */
  lemma KelvinKeywordFound()
    ensures PyLower(KelvinPackage) == "package"
    ensures NormalizeFolded(KelvinPackage, PyLower(KelvinPackage)) == "Packages Solutions"
  {
    var p := "package";
    assert PyLower(KelvinPackage) == p;
    assert OccursAt(p, "package", 0);
    MissingCharNotOccurs(p, "print", 'r');
    MissingCharNotOccurs(p, "press", 'r');
    MissingCharNotOccurs(p, "seo", 's');
    MissingCharNotOccurs(p, "search", 's');
    assert Classify(p) == PackagesSolutions;
  }

  /** Under ASCII lowering the Kelvin spelling contains no keyword, so the single-lowering
      normaliser falls back to Printing Press where the source picks Packages Solutions. */
  lemma KelvinKeywordMissed()
    ensures Normalize(KelvinPackage) == "Printing Press"
  {
    var w := KelvinPackage;
    LowerOfLower(w);
    MissingCharNotOccurs(w, "print", 'r');
    MissingCharNotOccurs(w, "press", 'r');
    MissingCharNotOccurs(w, "seo", 's');
    MissingCharNotOccurs(w, "search", 's');
    MissingCharNotOccurs(w, "package", 'k');
    MissingCharNotOccurs(w, "solution", 's');
    assert Classify(w) == PrintingPress;
  }
}

=== FILE: uploads.dfy ===
/** The upload check `allowed_file`: an image upload is accepted only by its extension. */
module Uploads {
  import opened Wrappers
  import opened Text

  /** The extensions an uploaded portfolio image may have (compared lowercased). */
  const AllowedExtensions: set<string> := {"jpg", "jpeg", "png", "gif"}

  /** The index of the last `c` among the first `n` characters of `s`, if any. */
  function LastIndexBefore(s: string, c: char, n: nat): (r: Option<nat>)
    requires n <= |s|
    ensures r.Some? ==> r.value < n && s[r.value] == c && forall j :: r.value < j < n ==> s[j] != c
    ensures r.None? ==> forall j :: 0 <= j < n ==> s[j] != c
  {
    if n == 0 then None
    else if s[n - 1] == c then Some(n - 1)
    else LastIndexBefore(s, c, n - 1)
  }

  /** Position `i` holds the last dot of `filename`. */
  ghost predicate LastDotAt(filename: string, i: int) {
    0 <= i < |filename| && filename[i] == '.' && forall j :: i < j < |filename| ==> filename[j] != '.'
  }

  /** `allowed_file`: the name contains a dot, and the text after its last dot
      (`filename.rsplit('.', 1)[1]`), lowercased, is one of the image extensions. */
  function AllowedFile(filename: string): (ok: bool)
    ensures ok <==> exists i :: LastDotAt(filename, i) && Lower(filename[i + 1..]) in AllowedExtensions
  {
    match LastIndexBefore(filename, '.', |filename|)
    case None => false
    case Some(i) =>
      assert LastDotAt(filename, i);
      assert forall k :: LastDotAt(filename, k) ==> k == i;
      Lower(filename[i + 1..]) in AllowedExtensions
  }

  /** An upper-case image extension is accepted. */
  lemma AllowedUpperCaseExtension()
    ensures AllowedFile("a.PNG")
  {
    var f := "a.PNG";
    assert f[1] == '.' && f[2..] == "PNG";
    assert Lower("PNG") == "png";
  }

  /** Only the text after the last dot counts: a trailing non-image extension is refused. */
  lemma RejectedDoubleExtension()
    ensures !AllowedFile("a.png.exe")
  {
    var f := "a.png.exe";
    assert LastIndexBefore("a.png.exe", '.', 9) == Some(5);
    assert f[6..] == "exe";
    assert Lower("exe") == "exe";
  }

  /** A name without a dot is refused. */
  lemma RejectedNoExtension()
    ensures !AllowedFile("noext")
  {
    assert '.' !in "noext";
  }
}

=== FILE: wrappers.dfy ===
/** The optional value used for lookups that may find nothing (Python's `None`). */
module Wrappers {

  datatype Option<+T> = None | Some(value: T)
}
